=== FILE: README.md ===
# Wallet sweep planner — Dafny model

This project models the "Clean Wallet" button of a Solana dApp. One click sweeps
the connected wallet to a recipient in a single transaction. For each SPL token
account the wallet owns, the handler emits up to three instructions:

- an optional create of the recipient's associated token account (ATA) for that mint;
- an optional transfer of the full token balance;
- a close of the token account.

After those it emits one transfer of the native SOL balance above a 5000-lamport
fee reserve. If the list is empty it reports that there is nothing to do.
Otherwise it fetches a blockhash, sends the transaction, waits for confirmation,
and shows a notification.

Modules:

- `Wrappers`: `Option`, and `Io`, which is an awaited call's result: `Returned(value)` or `Threw(message)`.
  The message is optional, because the code reports `error?.message`, which is undefined when the
  thrown value has no `message`.
- `Solana`: public keys, token accounts, the four instruction kinds and transactions.
- `Planner`: the pure planner. `AccountGroup` is one account's instructions. `PlanAccounts` folds the
  accounts in enumeration order. `NativeSweep` is the SOL transfer, and `Plan` is the whole list.
  `BuildInstructions` is the loop as the handler writes it: it pushes onto a mutable list, with
  `PushAccount` as one iteration. It is proved equal to `Plan`, so the pure fold that the handler
  model uses is the same list the written loop builds.
  Lemmas cover the layout of the groups, the instruction counts and the duplicate creates.
- `CleaningWallet`: the `onClick` handler, driven by an `Rpc` record of oracles. The record holds one
  oracle per awaited RPC or wallet call, and each says what that call returns or throws. The handler also records
  the external calls it makes, in order. So the model can state when nothing is called, when nothing
  is submitted, and what the reported `txid` is.
- `Notifications`: the mapping from outcome to the notification shown, with its inverse.

External behaviour is a parameter of the model:

- `parsePublicKey: string -> Option<PublicKey>` stands for the `PublicKey` constructor on the recipient text.
- `associatedAddress(mint, owner)` stands for `getAssociatedTokenAddress`.
- `Rpc` fields stand for `getParsedTokenAccountsByOwner`, `getAccountInfo`, `getBalance`,
  `getLatestBlockhash`, `sendTransaction` and `confirmTransaction`.

The pure planner takes a predicate `present: PublicKey -> bool` for the existence lookup.
`LookUpAccountsPlans`, `CollectPlans` and `RunSendsPlan` connect it to the handler. They hold
for any `present` that agrees with every lookup that returned.

## Model

| member | source | states |
|---|---|---|
| Planner.AccountGroup | src/components/CleaningWallet.tsx:57-89 | an account's group has one to three instructions and always ends with the close of that account, with the wallet as destination and authority |
| Planner.AccountGroupShape | src/components/CleaningWallet.tsx:57-89 | within a group: the create for `Ata(mint, recipient)` (paid by the wallet, owned by the recipient) appears iff the lookup found it absent, and then first; the transfer of exactly the full amount from the account to that ATA, signed by the wallet, appears iff the amount is non-zero, and then just before the close; the close is the only close and comes last; no SOL transfer |
| Planner.PlanAccounts | src/components/CleaningWallet.tsx:49-90 | the token part has at least one and at most three instructions per account in total (|accounts| ≤ length ≤ 3·|accounts|) and no SOL transfer |
| Planner.NativeSweep | src/components/CleaningWallet.tsx:93-104 | a SOL transfer from wallet to recipient is emitted iff balance − 5000 > 0, at most one, for exactly balance − 5000 lamports |
| Planner.Plan | src/components/CleaningWallet.tsx:49-106 | the list is empty iff there are no token accounts and balance ≤ 5000; a SOL transfer is present iff balance > 5000, and it is then the last instruction and moves balance − 5000 |
| Planner.BuildInstructions | src/components/CleaningWallet.tsx:49-104 | the push-onto-a-list loop followed by the residual check produces exactly the planned list |
| Planner.PlanAccountsAppend | src/components/CleaningWallet.tsx:51-90 | the loop's output for a concatenation of account lists is the concatenation of the outputs |
| Planner.PlanAccountsLength | src/components/CleaningWallet.tsx:49-90 | the token part has one instruction per account, plus one per absent ATA, plus one per non-zero amount |
| Planner.InstructionCount | src/components/CleaningWallet.tsx:49-104 | the instruction count is Σ(1 + [ATA absent] + [amount ≠ 0]) + [balance − 5000 > 0] |
| Planner.GroupAt | src/components/CleaningWallet.tsx:51-90 | the output is the per-account groups concatenated in enumeration order: account k's group is exactly the slice starting after the groups of accounts 0..k−1, and its last element is account k's close |
| Planner.TalliesMatchAccounts | src/components/CleaningWallet.tsx:57-89 | the token part holds as many closes as accounts, as many creates as accounts whose ATA was absent, as many token transfers as accounts with a non-zero amount, and no SOL transfer |
| Planner.SharedMintCreatesTwice | src/components/CleaningWallet.tsx:57-72 | two accounts of one mint whose recipient ATA is absent each get a create for the same ATA, so two creates are emitted |
| Planner.TwoAccountScenario | src/components/CleaningWallet.tsx:49-104 | mint A with 1000 and its ATA present, then mint B with 0 and its ATA absent, and 10000 lamports, gives [transfer A, close A, create B, close B, SOL 5000] |
| CleaningWallet.LookUpAccounts | src/components/CleaningWallet.tsx:51-60 | the loop makes one `getAccountInfo` per account, on `Ata(mint, recipient)`, in enumeration order, and makes all of them when it finishes |
| CleaningWallet.LookUpAccountsStops | src/components/CleaningWallet.tsx:51-60 | the loop stops at the first lookup that throws: every earlier lookup returned, and the loop throws that message |
| CleaningWallet.LookUpAccountsFinishes | src/components/CleaningWallet.tsx:51-90 | the loop runs to the end iff every account's lookup returns |
| CleaningWallet.LookUpAccountsPlans | src/components/CleaningWallet.tsx:51-90 | when the loop finishes, its list equals the pure planner's list for any existence predicate that agrees with the lookups |
| CleaningWallet.Collect | src/components/CleaningWallet.tsx:44-104 | enumeration is the first call; nothing is submitted before the empty check; calls stop at the first throw, and the failure is that throw; a finished collection ends with the one balance read; the collection finishes iff the enumeration, every account's lookup and the balance read all return |
| CleaningWallet.CollectAccounts | src/components/CleaningWallet.tsx:51-104 | after the enumeration: the lookups then the one balance read, none a submission call; calls stop at the first throw and the failure is that throw; it finishes, ending with the balance read, iff every account's lookup and the balance read return |
| CleaningWallet.CollectPlans | src/components/CleaningWallet.tsx:44-104 | when the accounts and the balance are read and every lookup returns, the collected list is exactly `Plan` and the calls are enumeration, one lookup per account, then the balance |
| CleaningWallet.Submit | src/components/CleaningWallet.tsx:106-127 | an empty list gives NothingToDo and no call; otherwise the first call is the blockhash fetch, the second (if made) is the send of (wallet, that blockhash, exactly the list), and the third (if made) is the confirm of the signature the send returned against that blockhash, with no fourth; calls stop at the first throw; Failed iff the last call threw, with its message; Success only after all three, with the txid the send returned; the reported txid is the signature a send returned, or '' |
| CleaningWallet.Sweep | src/components/CleaningWallet.tsx:42-128 | the `try` body with its `catch`: ends in NothingToDo (with no submission call), Success or Failed; the reads (enumeration, lookups, balance) all come before any blockhash, send or confirm call, and those come only once the balance read has returned; Failed iff the last call threw, described by that throw; the txid is the `signature` variable's value; Success ends with the blockhash fetch, a send paid by the wallet under that blockhash which returned the txid, and a confirm of that txid which returned |
| CleaningWallet.Run | src/components/CleaningWallet.tsx:28-128 | NotConnected iff no wallet; InvalidRecipient iff a wallet and an unparsable recipient; both make no external call, and every other click first enumerates the wallet's token accounts, then makes only reads until the balance read, and only blockhash, send and confirm calls after it; NothingToDo makes no blockhash, send or confirm call; Failed iff the last call threw; success and failure report the `signature` variable; Success ends with the blockhash fetch, a send paid by the wallet under that blockhash which returned the txid, and a confirm of that txid which returned |
| CleaningWallet.RunReadFails | src/components/CleaningWallet.tsx:44-128 | when the enumeration, some account's lookup or the balance read throws, the click is reported as a failure with txid '' and makes no blockhash, send or confirm call |
| CleaningWallet.RunQueryFailure | src/components/CleaningWallet.tsx:42-128 | a click that fails on the enumeration, a lookup or the balance read makes no blockhash, send or confirm call and reports txid '' |
| CleaningWallet.RunSendsPlan | src/components/CleaningWallet.tsx:106-120 | with all reads returning, the click ends in NothingToDo iff there are no token accounts and balance ≤ 5000, and any transaction it sends is paid by the wallet and carries exactly `Plan` |
| CleaningWallet.RunHappyPath | src/components/CleaningWallet.tsx:111-124 | when every call returns and there is something to do, the click ends with Success carrying the signature send returned; after the lookups the calls are balance, blockhash, send of (wallet, blockhash, plan), then confirm of that signature and blockhash |
| Notifications.Notify | src/components/CleaningWallet.tsx:29-127 | each outcome maps to its notification type: error for no wallet, bad recipient and failure; info for nothing to do; success for success. A txid is attached iff success or failure, and it is the outcome's; a failure carries the thrown message as its description (absent when the thrown value had none), and no other outcome has a description |
| Notifications.NotifyRoundTrip | src/components/CleaningWallet.tsx:29-127 | the outcome can be read back from its notification, so distinct outcomes show distinct notifications |
| Notifications.ClassifyInverse | src/components/CleaningWallet.tsx:29-127 | every notification that reads back as an outcome is exactly the notification of that outcome |

## Behaviour of note

- **Existence is checked per account.** The code derives the recipient ATA and calls
  `getAccountInfo` once per enumerated token account, against the ledger state before the
  transaction (lines 57-72). So two token accounts of one mint whose recipient ATA is absent
  produce two identical create instructions. `SharedMintCreatesTwice` proves this. On the ledger
  the second create would meet an account the first had just created. That ledger behaviour is
  outside this model.
- **Instructions are grouped per account.** Each account's create, transfer and close are pushed
  together before the next account's (lines 51-90). With mint A (1000, ATA present) enumerated
  before mint B (0, ATA absent), and 10000 lamports, the list is [transfer A, close A, create B,
  close B, SOL 5000]. `TwoAccountScenario` proves this.
- **Query failures have no separate outcome.** A throw from the enumeration, a lookup, the
  balance read or the blockhash fetch is caught by the same `catch` as a send or confirm failure.
  It is reported as "Transaction failed!" with txid `''` (`RunReadFails`, `Submit`).

## Left out

- Wallet adapter hooks, the RPC connection and `sendTransaction`: modelled only as the `Rpc` oracles, which return or throw. No network, timing or retry behaviour is modelled.
- `getAssociatedTokenAddress`: modelled as a total function parameter. Its rejection of an off-curve owner, a throw that the code would report as a failure with txid `''`, is not modelled.
- `new PublicKey(data.mint)` on the enumerated mint: the mint is taken as an already-parsed key, because the RPC returns valid addresses.
- LookUpAccounts: lookups are a function of the address, so two lookups of one address within a click give the same answer. The real RPC could see the ledger change between them.
- Token amounts and lamports are unbounded naturals. The string test `amount !== '0'` is modelled as `amount != 0`, which assumes canonical decimal strings. JavaScript `number` precision and `BigInt` conversion are not modelled.
- Binary instruction encoding and `TransactionMessage.compileToLegacyMessage` / `VersionedTransaction` are library serialisation. A throw there is folded into the send oracle's throw, which gives the same txid `''`. Transaction size and instruction-count limits are not modelled.
- `confirmTransaction` is modelled as returning or throwing, as the code uses it. The code does not inspect an on-chain error in the value it returns, and neither does the model.
- `console.error` logging, the React button's rendering and `disabled` state, the view in src/views/basics/index.tsx, and double-click re-entrancy: these are UI or concurrency, not part of the handler's logic.
- Ledger atomicity of the submitted transaction is enforced by the ledger, not by this code.

=== FILE: cleaning_wallet.dfy ===
/** The click handler of the wallet-cleaning button: check the wallet and the
    recipient, enumerate the wallet's token accounts, plan the sweep, and
    submit it as one transaction. Every awaited call is an oracle in `Rpc`,
    and the handler records the calls it makes, in order, so that what it
    does and does not call can be stated. */
module CleaningWallet {
  import opened Wrappers
  import opened Solana
  import opened Planner

  /** What each awaited call returns or throws. `getAccountInfo(address)`
      returns true when an account lives at `address`. */
  datatype Rpc = Rpc(
    getParsedTokenAccountsByOwner: PublicKey -> Io<seq<TokenAccount>>,
    getAccountInfo: PublicKey -> Io<bool>,
    getBalance: PublicKey -> Io<nat>,
    getLatestBlockhash: Io<BlockhashInfo>,
    sendTransaction: Transaction -> Io<Signature>,
    confirmTransaction: (Signature, BlockhashInfo) -> Io<()>)

  /** An external call made by the handler. */
  datatype Call =
    | GetParsedTokenAccountsByOwner(owner: PublicKey)
    | GetAccountInfo(address: PublicKey)
    | GetBalance(owner: PublicKey)
    | GetLatestBlockhash
    | SendTransaction(transaction: Transaction)
    | ConfirmTransaction(signature: Signature, latest: BlockhashInfo)
  {
    /** The calls made only once there is a non-empty instruction list to submit. */
    predicate Submission() {
      GetLatestBlockhash? || SendTransaction? || ConfirmTransaction?
    }

    /** Whether this call returns or throws under `rpc`, and with what message. */
    function Status(rpc: Rpc): Io<()> {
      match this
      case GetParsedTokenAccountsByOwner(owner) => rpc.getParsedTokenAccountsByOwner(owner).Status()
      case GetAccountInfo(address) => rpc.getAccountInfo(address).Status()
      case GetBalance(owner) => rpc.getBalance(owner).Status()
      case GetLatestBlockhash => rpc.getLatestBlockhash.Status()
      case SendTransaction(transaction) => rpc.sendTransaction(transaction).Status()
      case ConfirmTransaction(signature, latest) => rpc.confirmTransaction(signature, latest).Status()
    }
  }

  /** How one click ends; each outcome becomes one notification. */
  datatype Outcome =
    | NotConnected
    | InvalidRecipient
    | NothingToDo
    | Success(txid: Signature)
    | Failed(txid: Signature, description: Option<string>)

  /** The outcome of a click together with the external calls it made, in order. */
  datatype Invocation = Invocation(outcome: Outcome, calls: seq<Call>)

  /** The instructions gathered so far (or what was thrown), with the calls made. */
  datatype Gathered = Gathered(result: Io<seq<Instruction>>, calls: seq<Call>)

  /** The value of the handler's `signature` variable after a sequence of
      calls: what a send returned, or the empty string if no send returned. */
  function SignatureOf(calls: seq<Call>, rpc: Rpc): Signature
    decreases |calls|
  {
    if calls == [] then ""
    else if calls[0].SendTransaction? && rpc.sendTransaction(calls[0].transaction).Returned?
    then rpc.sendTransaction(calls[0].transaction).value
    else SignatureOf(calls[1..], rpc)
  }

  /** The calls end with the submission that succeeded: the blockhash fetch,
      the send of a transaction paid by `principal` under that blockhash, which
      returned `txid`, and the confirmation of `txid` against that blockhash,
      which returned. */
  ghost predicate ConfirmedSend(calls: seq<Call>, principal: PublicKey, txid: Signature, rpc: Rpc) {
    && |calls| >= 3
    && rpc.getLatestBlockhash.Returned?
    && var latest := rpc.getLatestBlockhash.value;
    && var send := calls[|calls| - 2];
    && calls[|calls| - 3] == GetLatestBlockhash
    && send.SendTransaction?
    && send.transaction.payerKey == principal
    && send.transaction.recentBlockhash == latest.blockhash
    && rpc.sendTransaction(send.transaction) == Returned(txid)
    && calls[|calls| - 1] == ConfirmTransaction(txid, latest)
    && rpc.confirmTransaction(txid, latest).Returned?
  }

  /** The first `k` calls are reads (enumeration, lookups, balance) and the
      rest are submission calls; if there are any, the balance read comes
      just before them. */
  ghost predicate ReadsThenSubmissions(calls: seq<Call>, principal: PublicKey, k: nat) {
    && k <= |calls|
    && (forall i :: 0 <= i < k ==> !calls[i].Submission())
    && (forall i :: k <= i < |calls| ==> calls[i].Submission())
    && (k < |calls| ==> 0 < k && calls[k - 1] == GetBalance(principal))
  }

  /** Calls that end at the first throw: every call but the last returned. */
  ghost predicate StopsAtFirstThrow(calls: seq<Call>, rpc: Rpc) {
    forall i :: 0 <= i < |calls| - 1 ==> calls[i].Status(rpc).Returned?
  }

  /** Every existence lookup the planning loop makes for these accounts returns. */
  ghost predicate LookupsReturn(accounts: seq<TokenAccount>, recipient: PublicKey,
                                associatedAddress: (PublicKey, PublicKey) -> PublicKey, rpc: Rpc) {
    forall i :: 0 <= i < |accounts| ==> rpc.getAccountInfo(associatedAddress(accounts[i].mint, recipient)).Returned?
  }

  /** `present` answers as every lookup that returned did. */
  ghost predicate Agrees(present: PublicKey -> bool, rpc: Rpc) {
    forall address :: rpc.getAccountInfo(address).Returned? ==> present(address) == rpc.getAccountInfo(address).value
  }

  /** The planning loop with its existence lookups: one lookup per account, in
      order, until one throws. */
  function LookUpAccounts(accounts: seq<TokenAccount>, principal: PublicKey, recipient: PublicKey,
                          associatedAddress: (PublicKey, PublicKey) -> PublicKey, rpc: Rpc): (g: Gathered)
    ensures |g.calls| <= |accounts|
    ensures forall i :: 0 <= i < |g.calls| ==> g.calls[i] == GetAccountInfo(associatedAddress(accounts[i].mint, recipient))
    ensures g.result.Returned? ==> |g.calls| == |accounts|
    decreases |accounts|
  {
    if accounts == [] then Gathered(Returned([]), [])
    else
      var recipientAta := associatedAddress(accounts[0].mint, recipient);
      var lookup := GetAccountInfo(recipientAta);
      match rpc.getAccountInfo(recipientAta)
      case Threw(message) => Gathered(Threw(message), [lookup])
      case Returned(ataExists) =>
        var rest := LookUpAccounts(accounts[1..], principal, recipient, associatedAddress, rpc);
        var group := AccountGroup(accounts[0], principal, recipient, recipientAta, ataExists);
        var result := match rest.result
                      case Returned(later) => Returned(group + later)
                      case Threw(message) => Threw(message);
        Gathered(result, [lookup] + rest.calls)
  }

  /** The planning loop stops at the first lookup that throws: every lookup
      before it returned, and what it threw is what the loop throws. */
  lemma {:induction false} LookUpAccountsStops(accounts: seq<TokenAccount>, principal: PublicKey, recipient: PublicKey,
                                               associatedAddress: (PublicKey, PublicKey) -> PublicKey, rpc: Rpc)
    ensures var g := LookUpAccounts(accounts, principal, recipient, associatedAddress, rpc);
            && StopsAtFirstThrow(g.calls, rpc)
            && (g.result.Returned? ==> forall i :: 0 <= i < |g.calls| ==> g.calls[i].Status(rpc).Returned?)
            && (g.result.Threw? ==> g.calls != [] && g.calls[|g.calls| - 1].Status(rpc) == Threw(g.result.message))
    decreases |accounts|
  {
    if accounts != [] {
      var g := LookUpAccounts(accounts, principal, recipient, associatedAddress, rpc);
      var recipientAta := associatedAddress(accounts[0].mint, recipient);
      if rpc.getAccountInfo(recipientAta).Returned? {
        var rest := LookUpAccounts(accounts[1..], principal, recipient, associatedAddress, rpc);
        LookUpAccountsStops(accounts[1..], principal, recipient, associatedAddress, rpc);
        assert g.calls == [GetAccountInfo(recipientAta)] + rest.calls;
        assert forall i :: 1 <= i < |g.calls| ==> g.calls[i] == rest.calls[i - 1];
      }
    }
  }

  /** The planning loop runs to the end exactly when every lookup returns. */
  lemma {:induction false} LookUpAccountsFinishes(accounts: seq<TokenAccount>, principal: PublicKey, recipient: PublicKey,
                                                  associatedAddress: (PublicKey, PublicKey) -> PublicKey, rpc: Rpc)
    ensures LookUpAccounts(accounts, principal, recipient, associatedAddress, rpc).result.Returned?
            <==> LookupsReturn(accounts, recipient, associatedAddress, rpc)
    decreases |accounts|
  {
    if accounts != [] {
      var recipientAta := associatedAddress(accounts[0].mint, recipient);
      if rpc.getAccountInfo(recipientAta).Returned? {
        LookUpAccountsFinishes(accounts[1..], principal, recipient, associatedAddress, rpc);
        if LookupsReturn(accounts[1..], recipient, associatedAddress, rpc) {
          assert forall i :: 1 <= i < |accounts| ==> accounts[i] == accounts[1..][i - 1];
        } else {
          var j :| 0 <= j < |accounts[1..]|
                   && !rpc.getAccountInfo(associatedAddress(accounts[1..][j].mint, recipient)).Returned?;
          assert accounts[1..][j] == accounts[j + 1];
        }
      }
    }
  }

  /** When the lookups all return, the loop emits the plan the pure planner
      computes from any existence predicate that agrees with them. */
  lemma {:induction false} LookUpAccountsPlans(accounts: seq<TokenAccount>, principal: PublicKey, recipient: PublicKey,
                                               associatedAddress: (PublicKey, PublicKey) -> PublicKey, rpc: Rpc,
                                               present: PublicKey -> bool)
    requires Agrees(present, rpc)
    ensures var g := LookUpAccounts(accounts, principal, recipient, associatedAddress, rpc);
            g.result.Returned? ==> g.result.value == PlanAccounts(accounts, principal, recipient, associatedAddress, present)
    decreases |accounts|
  {
    if accounts != [] {
      LookUpAccountsPlans(accounts[1..], principal, recipient, associatedAddress, rpc, present);
    }
  }

  /** Lines up to the empty check: enumerate, then gather the account
      instructions and the native sweep. */
  function Collect(principal: PublicKey, recipient: PublicKey,
                   associatedAddress: (PublicKey, PublicKey) -> PublicKey, rpc: Rpc): (g: Gathered)
    ensures g.calls != [] && g.calls[0] == GetParsedTokenAccountsByOwner(principal)
    ensures forall i :: 0 <= i < |g.calls| ==> !g.calls[i].Submission()
    ensures StopsAtFirstThrow(g.calls, rpc)
    ensures g.result.Threw? <==> g.calls[|g.calls| - 1].Status(rpc).Threw?
    ensures g.result.Threw? ==> g.calls[|g.calls| - 1].Status(rpc) == Threw(g.result.message)
    ensures g.result.Returned? ==> g.calls[|g.calls| - 1] == GetBalance(principal)
    ensures g.result.Returned? ==> forall i :: 0 <= i < |g.calls| ==> g.calls[i].Status(rpc).Returned?
    ensures g.result.Returned? <==>
              && rpc.getParsedTokenAccountsByOwner(principal).Returned?
              && LookupsReturn(rpc.getParsedTokenAccountsByOwner(principal).value, recipient, associatedAddress, rpc)
              && rpc.getBalance(principal).Returned?
  {
    var enumerate := GetParsedTokenAccountsByOwner(principal);
    match rpc.getParsedTokenAccountsByOwner(principal)
    case Threw(message) => Gathered(Threw(message), [enumerate])
    case Returned(accounts) =>
      var rest := CollectAccounts(accounts, principal, recipient, associatedAddress, rpc);
      TraceAppend([enumerate], rest.calls, rpc);
      NoSubmissionAppend([enumerate], rest.calls);
      Gathered(rest.result, [enumerate] + rest.calls)
  }

  /** The enumerated accounts' part of `Collect`: the planning loop with its
      lookups, then the one balance read and the native sweep. */
  function CollectAccounts(accounts: seq<TokenAccount>, principal: PublicKey, recipient: PublicKey,
                           associatedAddress: (PublicKey, PublicKey) -> PublicKey, rpc: Rpc): (g: Gathered)
    ensures g.calls != []
    ensures forall i :: 0 <= i < |g.calls| ==> !g.calls[i].Submission()
    ensures StopsAtFirstThrow(g.calls, rpc)
    ensures g.result.Threw? <==> g.calls[|g.calls| - 1].Status(rpc).Threw?
    ensures g.result.Threw? ==> g.calls[|g.calls| - 1].Status(rpc) == Threw(g.result.message)
    ensures g.result.Returned? ==> g.calls[|g.calls| - 1] == GetBalance(principal)
    ensures g.result.Returned? ==> forall i :: 0 <= i < |g.calls| ==> g.calls[i].Status(rpc).Returned?
    ensures g.result.Returned? <==>
              LookupsReturn(accounts, recipient, associatedAddress, rpc) && rpc.getBalance(principal).Returned?
  {
    var looked := LookUpAccounts(accounts, principal, recipient, associatedAddress, rpc);
    LookUpAccountsStops(accounts, principal, recipient, associatedAddress, rpc);
    LookUpAccountsFinishes(accounts, principal, recipient, associatedAddress, rpc);
    if looked.result.Threw? then Gathered(looked.result, looked.calls)
    else
      var calls := looked.calls + [GetBalance(principal)];
      TraceAppend(looked.calls, [GetBalance(principal)], rpc);
      NoSubmissionAppend(looked.calls, [GetBalance(principal)]);
      match rpc.getBalance(principal)
      case Threw(message) => Gathered(Threw(message), calls)
      case Returned(balance) =>
        Gathered(Returned(looked.result.value + NativeSweep(principal, recipient, balance)), calls)
  }

  /** With the token accounts and the balance read, and every lookup
      returning, the gathered list is exactly the plan. */
  lemma CollectPlans(principal: PublicKey, recipient: PublicKey,
                     associatedAddress: (PublicKey, PublicKey) -> PublicKey, rpc: Rpc,
                     present: PublicKey -> bool, accounts: seq<TokenAccount>, balance: nat)
    requires rpc.getParsedTokenAccountsByOwner(principal) == Returned(accounts)
    requires rpc.getBalance(principal) == Returned(balance)
    requires LookupsReturn(accounts, recipient, associatedAddress, rpc)
    requires Agrees(present, rpc)
    ensures var g := Collect(principal, recipient, associatedAddress, rpc);
            && g.result == Returned(Plan(accounts, principal, recipient, associatedAddress, present, balance))
            && |g.calls| == |accounts| + 2
            && (forall i :: 0 <= i < |accounts| ==>
                  g.calls[i + 1] == GetAccountInfo(associatedAddress(accounts[i].mint, recipient)))
  {
    LookUpAccountsPlans(accounts, principal, recipient, associatedAddress, rpc, present);
    LookUpAccountsFinishes(accounts, principal, recipient, associatedAddress, rpc);
  }

  /** Lines from the empty check on: report that there is nothing to do, or
      fetch a blockhash, send, and confirm. */
  function Submit(principal: PublicKey, instructions: seq<Instruction>, rpc: Rpc): (inv: Invocation)
    ensures inv.outcome == NothingToDo <==> instructions == []
    ensures instructions == [] ==> inv.calls == []
    ensures instructions != [] ==> inv.calls != [] && (inv.outcome.Success? || inv.outcome.Failed?)
    ensures forall i :: 0 <= i < |inv.calls| ==> inv.calls[i].Submission()
    ensures forall i :: 0 <= i < |inv.calls| && inv.calls[i].SendTransaction? ==>
              inv.calls[i].transaction.payerKey == principal && inv.calls[i].transaction.instructions == instructions
    ensures StopsAtFirstThrow(inv.calls, rpc)
    ensures inv.outcome.Failed? <==> inv.calls != [] && inv.calls[|inv.calls| - 1].Status(rpc).Threw?
    ensures inv.outcome.Failed? ==> inv.calls[|inv.calls| - 1].Status(rpc) == Threw(inv.outcome.description)
    ensures inv.outcome.Success? || inv.outcome.Failed? ==> inv.outcome.txid == SignatureOf(inv.calls, rpc)
    ensures instructions != [] ==> inv.calls[0] == GetLatestBlockhash
    ensures |inv.calls| <= 3
    ensures |inv.calls| >= 2 ==>
              && rpc.getLatestBlockhash.Returned?
              && inv.calls[1] == SendTransaction(Transaction(principal, rpc.getLatestBlockhash.value.blockhash, instructions))
    ensures |inv.calls| == 3 ==>
              && rpc.sendTransaction(inv.calls[1].transaction).Returned?
              && inv.calls[2] == ConfirmTransaction(rpc.sendTransaction(inv.calls[1].transaction).value,
                                                    rpc.getLatestBlockhash.value)
    ensures inv.outcome.Success? ==> |inv.calls| == 3 && ConfirmedSend(inv.calls, principal, inv.outcome.txid, rpc)
  {
    if |instructions| == 0 then Invocation(NothingToDo, [])
    else
      match rpc.getLatestBlockhash
      case Threw(message) => Invocation(Failed("", message), [GetLatestBlockhash])
      case Returned(latest) =>
        var transaction := Transaction(principal, latest.blockhash, instructions);
        match rpc.sendTransaction(transaction)
        case Threw(message) =>
          var calls := [GetLatestBlockhash, SendTransaction(transaction)];
          assert calls[1..] == [SendTransaction(transaction)];
          assert calls[1..][1..] == [];
          assert SignatureOf(calls[1..], rpc) == "";
          Invocation(Failed("", message), calls)
        case Returned(signature) =>
          var calls := [GetLatestBlockhash, SendTransaction(transaction), ConfirmTransaction(signature, latest)];
          assert calls[1..][1..] == [ConfirmTransaction(signature, latest)];
          match rpc.confirmTransaction(signature, latest)
          case Threw(message) => Invocation(Failed(signature, message), calls)
          case Returned(_) => Invocation(Success(signature), calls)
  }

  /** Calls that send nothing leave the `signature` variable as it was. */
  lemma {:induction false} SignatureOfAppend(xs: seq<Call>, ys: seq<Call>, rpc: Rpc)
    requires forall i :: 0 <= i < |xs| ==> !xs[i].SendTransaction?
    ensures SignatureOf(xs + ys, rpc) == SignatureOf(ys, rpc)
    decreases |xs|
  {
    if xs == [] {
      assert xs + ys == ys;
    } else {
      assert (xs + ys)[1..] == xs[1..] + ys;
      SignatureOfAppend(xs[1..], ys, rpc);
    }
  }

  lemma {:induction false} SignatureOfNoSend(calls: seq<Call>, rpc: Rpc)
    requires forall i :: 0 <= i < |calls| ==> !calls[i].SendTransaction?
    ensures SignatureOf(calls, rpc) == ""
    decreases |calls|
  {
    if calls != [] {
      SignatureOfNoSend(calls[1..], rpc);
    }
  }

  /** The body of the `try` block, with the `catch` that reports the failure. */
  function Sweep(principal: PublicKey, recipient: PublicKey,
                 associatedAddress: (PublicKey, PublicKey) -> PublicKey, rpc: Rpc): (inv: Invocation)
    ensures inv.calls != [] && inv.calls[0] == GetParsedTokenAccountsByOwner(principal)
    ensures inv.outcome.NothingToDo? || inv.outcome.Success? || inv.outcome.Failed?
    ensures inv.outcome == NothingToDo ==> forall i :: 0 <= i < |inv.calls| ==> !inv.calls[i].Submission()
    ensures StopsAtFirstThrow(inv.calls, rpc)
    ensures inv.outcome.Failed? <==> inv.calls[|inv.calls| - 1].Status(rpc).Threw?
    ensures inv.outcome.Failed? ==> inv.calls[|inv.calls| - 1].Status(rpc) == Threw(inv.outcome.description)
    ensures inv.outcome.Success? || inv.outcome.Failed? ==> inv.outcome.txid == SignatureOf(inv.calls, rpc)
    ensures inv.outcome.Success? ==> ConfirmedSend(inv.calls, principal, inv.outcome.txid, rpc)
    ensures exists k :: 0 < k <= |inv.calls| && ReadsThenSubmissions(inv.calls, principal, k)
  {
    var collected := Collect(principal, recipient, associatedAddress, rpc);
    match collected.result
    case Threw(message) =>
      SignatureOfNoSend(collected.calls, rpc);
      assert ReadsThenSubmissions(collected.calls, principal, |collected.calls|);
      Invocation(Failed("", message), collected.calls)
    case Returned(instructions) =>
      var submitted := Submit(principal, instructions, rpc);
      SignatureOfAppend(collected.calls, submitted.calls, rpc);
      TraceAppend(collected.calls, submitted.calls, rpc);
      var calls := collected.calls + submitted.calls;
      ReadsThenSubmissionsAppend(collected.calls, submitted.calls, principal);
      if submitted.outcome.Success? then
        ConfirmedSendAppend(collected.calls, submitted.calls, principal, submitted.outcome.txid, rpc);
        Invocation(submitted.outcome, calls)
      else Invocation(submitted.outcome, calls)
  }

  /** Calls that all returned, followed by calls that stop at their first
      throw, stop at their first throw, and end as the second part ends. */
  lemma TraceAppend(xs: seq<Call>, ys: seq<Call>, rpc: Rpc)
    requires forall i :: 0 <= i < |xs| ==> xs[i].Status(rpc).Returned?
    requires StopsAtFirstThrow(ys, rpc)
    ensures StopsAtFirstThrow(xs + ys, rpc)
    ensures ys != [] ==> (xs + ys)[|xs + ys| - 1] == ys[|ys| - 1]
  {
    forall i | 0 <= i < |xs + ys| - 1
      ensures (xs + ys)[i].Status(rpc).Returned?
    {
      if i >= |xs| {
        assert (xs + ys)[i] == ys[i - |xs|];
      }
    }
  }

  /** Calls made before a successful submission do not change how it ends. */
  lemma ConfirmedSendAppend(xs: seq<Call>, ys: seq<Call>, principal: PublicKey, txid: Signature, rpc: Rpc)
    requires ConfirmedSend(ys, principal, txid, rpc)
    ensures ConfirmedSend(xs + ys, principal, txid, rpc)
  {
    var n := |xs + ys|;
    assert (xs + ys)[n - 3] == ys[|ys| - 3];
    assert (xs + ys)[n - 2] == ys[|ys| - 2];
    assert (xs + ys)[n - 1] == ys[|ys| - 1];
  }

  /** Reads ending with the balance read, followed by submission calls, split
      where the reads end. */
  lemma ReadsThenSubmissionsAppend(xs: seq<Call>, ys: seq<Call>, principal: PublicKey)
    requires forall i :: 0 <= i < |xs| ==> !xs[i].Submission()
    requires forall i :: 0 <= i < |ys| ==> ys[i].Submission()
    requires ys != [] ==> xs != [] && xs[|xs| - 1] == GetBalance(principal)
    ensures ReadsThenSubmissions(xs + ys, principal, |xs|)
  {
    forall i | 0 <= i < |xs|
      ensures !(xs + ys)[i].Submission()
    {
      assert (xs + ys)[i] == xs[i];
    }
    forall i | |xs| <= i < |xs + ys|
      ensures (xs + ys)[i].Submission()
    {
      assert (xs + ys)[i] == ys[i - |xs|];
    }
  }

  /** Two lists of calls without a submission call make one without. */
  lemma NoSubmissionAppend(xs: seq<Call>, ys: seq<Call>)
    requires forall i :: 0 <= i < |xs| ==> !xs[i].Submission()
    requires forall i :: 0 <= i < |ys| ==> !ys[i].Submission()
    ensures forall i :: 0 <= i < |xs + ys| ==> !(xs + ys)[i].Submission()
  {
    forall i | 0 <= i < |xs + ys|
      ensures !(xs + ys)[i].Submission()
    {
      if i >= |xs| {
        assert (xs + ys)[i] == ys[i - |xs|];
      }
    }
  }

  /** The click handler. `parsePublicKey` is the address parser, which answers
      None where the key constructor throws; `associatedAddress(mint, owner)`
      derives an associated token account address. */
  function Run(wallet: Option<PublicKey>, recipient: string, parsePublicKey: string -> Option<PublicKey>,
               associatedAddress: (PublicKey, PublicKey) -> PublicKey, rpc: Rpc): (inv: Invocation)
    ensures inv.outcome == NotConnected <==> wallet.None?
    ensures inv.outcome == InvalidRecipient <==> wallet.Some? && parsePublicKey(recipient).None?
    ensures inv.calls == [] <==> inv.outcome == NotConnected || inv.outcome == InvalidRecipient
    ensures inv.calls != [] ==> inv.calls[0] == GetParsedTokenAccountsByOwner(wallet.value)
    ensures inv.outcome == NothingToDo ==> forall i :: 0 <= i < |inv.calls| ==> !inv.calls[i].Submission()
    ensures StopsAtFirstThrow(inv.calls, rpc)
    ensures inv.outcome.Failed? <==> inv.calls != [] && inv.calls[|inv.calls| - 1].Status(rpc).Threw?
    ensures inv.outcome.Failed? ==> inv.calls[|inv.calls| - 1].Status(rpc) == Threw(inv.outcome.description)
    ensures inv.outcome.Success? || inv.outcome.Failed? ==> inv.outcome.txid == SignatureOf(inv.calls, rpc)
    ensures inv.outcome.Success? ==> ConfirmedSend(inv.calls, wallet.value, inv.outcome.txid, rpc)
    ensures inv.calls != [] ==> exists k :: 0 < k <= |inv.calls| && ReadsThenSubmissions(inv.calls, wallet.value, k)
  {
    match wallet
    case None => Invocation(NotConnected, [])
    case Some(principal) =>
      match parsePublicKey(recipient)
      case None => Invocation(InvalidRecipient, [])
      case Some(recipientKey) => Sweep(principal, recipientKey, associatedAddress, rpc)
  }

  /** A click whose enumeration, some lookup, or balance read throws ends in
      a failure with txid '' and makes no blockhash, send or confirm call. */
  lemma RunReadFails(wallet: Option<PublicKey>, recipient: string, parsePublicKey: string -> Option<PublicKey>,
                     associatedAddress: (PublicKey, PublicKey) -> PublicKey, rpc: Rpc,
                     principal: PublicKey, recipientKey: PublicKey)
    requires wallet == Some(principal) && parsePublicKey(recipient) == Some(recipientKey)
    requires var enumerated := rpc.getParsedTokenAccountsByOwner(principal);
             || enumerated.Threw?
             || !LookupsReturn(enumerated.value, recipientKey, associatedAddress, rpc)
             || rpc.getBalance(principal).Threw?
    ensures var inv := Run(wallet, recipient, parsePublicKey, associatedAddress, rpc);
            && inv.outcome.Failed?
            && inv.outcome.txid == ""
            && (forall i :: 0 <= i < |inv.calls| ==> !inv.calls[i].Submission())
  {
    SignatureOfNoSend(Collect(principal, recipientKey, associatedAddress, rpc).calls, rpc);
  }

  /** A click that fails on a read (the enumeration, a lookup or the balance)
      made no blockhash, send or confirm call and reports txid ''. */
  lemma RunQueryFailure(wallet: Option<PublicKey>, recipient: string, parsePublicKey: string -> Option<PublicKey>,
                        associatedAddress: (PublicKey, PublicKey) -> PublicKey, rpc: Rpc)
    ensures var inv := Run(wallet, recipient, parsePublicKey, associatedAddress, rpc);
            inv.outcome.Failed? && !inv.calls[|inv.calls| - 1].Submission() ==>
              && (forall i :: 0 <= i < |inv.calls| ==> !inv.calls[i].Submission())
              && inv.outcome.txid == ""
  {
    var inv := Run(wallet, recipient, parsePublicKey, associatedAddress, rpc);
    if inv.outcome.Failed? && !inv.calls[|inv.calls| - 1].Submission() {
      var k :| 0 < k <= |inv.calls| && ReadsThenSubmissions(inv.calls, wallet.value, k);
      assert k == |inv.calls|;
      SignatureOfNoSend(inv.calls, rpc);
    }
  }

  /** With the wallet connected, the recipient parsed, the accounts and the
      balance read and every lookup returning: the click ends in NothingToDo
      exactly when the plan is empty, and otherwise any transaction it sends
      is paid by the wallet and carries exactly the plan. */
  lemma RunSendsPlan(wallet: Option<PublicKey>, recipient: string, parsePublicKey: string -> Option<PublicKey>,
                     associatedAddress: (PublicKey, PublicKey) -> PublicKey, rpc: Rpc,
                     present: PublicKey -> bool, principal: PublicKey, recipientKey: PublicKey,
                     accounts: seq<TokenAccount>, balance: nat)
    requires wallet == Some(principal) && parsePublicKey(recipient) == Some(recipientKey)
    requires rpc.getParsedTokenAccountsByOwner(principal) == Returned(accounts)
    requires rpc.getBalance(principal) == Returned(balance)
    requires LookupsReturn(accounts, recipientKey, associatedAddress, rpc)
    requires Agrees(present, rpc)
    ensures var inv := Run(wallet, recipient, parsePublicKey, associatedAddress, rpc);
            var plan := Plan(accounts, principal, recipientKey, associatedAddress, present, balance);
            && (inv.outcome == NothingToDo <==> accounts == [] && balance <= FeeReserve)
            && (forall i :: 0 <= i < |inv.calls| && inv.calls[i].SendTransaction? ==>
                  inv.calls[i].transaction.payerKey == principal && inv.calls[i].transaction.instructions == plan)
  {
    var collected := Collect(principal, recipientKey, associatedAddress, rpc);
    CollectPlans(principal, recipientKey, associatedAddress, rpc, present, accounts, balance);
    var plan := Plan(accounts, principal, recipientKey, associatedAddress, present, balance);
    var submitted := Submit(principal, plan, rpc);
    var inv := Run(wallet, recipient, parsePublicKey, associatedAddress, rpc);
    assert inv.calls == collected.calls + submitted.calls;
    forall i | 0 <= i < |inv.calls| && inv.calls[i].SendTransaction?
      ensures inv.calls[i].transaction.payerKey == principal && inv.calls[i].transaction.instructions == plan
    {
      assert i >= |collected.calls|;
      assert inv.calls[i] == submitted.calls[i - |collected.calls|];
    }
  }

  /** When every call returns and there is something to do, the click makes
      exactly these calls and reports the signature the send returned. */
  lemma RunHappyPath(wallet: Option<PublicKey>, recipient: string, parsePublicKey: string -> Option<PublicKey>,
                     associatedAddress: (PublicKey, PublicKey) -> PublicKey, rpc: Rpc,
                     present: PublicKey -> bool, principal: PublicKey, recipientKey: PublicKey,
                     accounts: seq<TokenAccount>, balance: nat, latest: BlockhashInfo, signature: Signature)
    requires wallet == Some(principal) && parsePublicKey(recipient) == Some(recipientKey)
    requires rpc.getParsedTokenAccountsByOwner(principal) == Returned(accounts)
    requires rpc.getBalance(principal) == Returned(balance)
    requires LookupsReturn(accounts, recipientKey, associatedAddress, rpc)
    requires Agrees(present, rpc)
    requires accounts != [] || balance > FeeReserve
    requires rpc.getLatestBlockhash == Returned(latest)
    requires var plan := Plan(accounts, principal, recipientKey, associatedAddress, present, balance);
             rpc.sendTransaction(Transaction(principal, latest.blockhash, plan)) == Returned(signature)
    requires rpc.confirmTransaction(signature, latest).Returned?
    ensures var inv := Run(wallet, recipient, parsePublicKey, associatedAddress, rpc);
            var plan := Plan(accounts, principal, recipientKey, associatedAddress, present, balance);
            && inv.outcome == Success(signature)
            && |inv.calls| == |accounts| + 5
            && inv.calls[|accounts| + 1] == GetBalance(principal)
            && inv.calls[|accounts| + 2] == GetLatestBlockhash
            && inv.calls[|accounts| + 3] == SendTransaction(Transaction(principal, latest.blockhash, plan))
            && inv.calls[|accounts| + 4] == ConfirmTransaction(signature, latest)
  {
    CollectPlans(principal, recipientKey, associatedAddress, rpc, present, accounts, balance);
  }
}

=== FILE: notifications.dfy ===
/** The one notification a click shows, as a pure mapping from its outcome. */
module Notifications {
  import opened Wrappers
  import opened Solana
  import opened CleaningWallet

  datatype Level = ErrorLevel | InfoLevel | SuccessLevel

  /** A toast: its type, its message, and the optional description and
      transaction id it carries. A failure's description is the thrown
      value's message, and is absent when that value has none. */
  datatype Notification = Notification(level: Level, message: string, description: Option<string>, txid: Option<Signature>)

  const WalletNotConnected := "Wallet not connected!"
  const InvalidRecipientAddress := "Invalid recipient wallet address!"
  const NoEligibleAccounts := "No eligible accounts to process."
  const TransactionSuccessful := "Transaction successful!"
  const TransactionFailed := "Transaction failed!"

  /** The notification shown for an outcome. */
  function Notify(outcome: Outcome): (n: Notification)
    ensures n.level == ErrorLevel <==> outcome.NotConnected? || outcome.InvalidRecipient? || outcome.Failed?
    ensures n.level == InfoLevel <==> outcome.NothingToDo?
    ensures n.level == SuccessLevel <==> outcome.Success?
    ensures n.txid.Some? <==> outcome.Success? || outcome.Failed?
    ensures n.txid.Some? ==> n.txid.value == outcome.txid
    ensures outcome.Failed? ==> n.description == outcome.description
    ensures !outcome.Failed? ==> n.description.None?
  {
    match outcome
    case NotConnected => Notification(ErrorLevel, WalletNotConnected, None, None)
    case InvalidRecipient => Notification(ErrorLevel, InvalidRecipientAddress, None, None)
    case NothingToDo => Notification(InfoLevel, NoEligibleAccounts, None, None)
    case Success(txid) => Notification(SuccessLevel, TransactionSuccessful, None, Some(txid))
    case Failed(txid, description) => Notification(ErrorLevel, TransactionFailed, description, Some(txid))
  }

  /** Reads the outcome back from a notification, if it is one `Notify` shows. */
  function Classify(n: Notification): Option<Outcome> {
    match n.level
    case InfoLevel =>
      if n.message == NoEligibleAccounts && n.description.None? && n.txid.None? then Some(NothingToDo) else None
    case SuccessLevel =>
      if n.message == TransactionSuccessful && n.description.None? && n.txid.Some?
      then Some(Success(n.txid.value)) else None
    case ErrorLevel =>
      if n.message == WalletNotConnected && n.description.None? && n.txid.None? then Some(NotConnected)
      else if n.message == InvalidRecipientAddress && n.description.None? && n.txid.None? then Some(InvalidRecipient)
      else if n.message == TransactionFailed && n.txid.Some?
      then Some(Failed(n.txid.value, n.description))
      else None
  }

  /** Distinct outcomes give distinct notifications: each can be read back. */
  lemma NotifyRoundTrip(outcome: Outcome)
    ensures Classify(Notify(outcome)) == Some(outcome)
  {
  }

  /** `Classify` accepts exactly the notifications `Notify` shows. */
  lemma ClassifyInverse(n: Notification)
    ensures Classify(n).Some? ==> Notify(Classify(n).value) == n
  {
  }
}

=== FILE: planner.dfy ===
/** The instruction planner of the sweep: for every token account of the
    connected wallet an optional create of the recipient's associated token
    account, an optional full-balance transfer and a close, followed by one
    transfer of the native balance above the fee reserve. */
module Planner {
  import opened Solana

  /** Lamports left in the wallet to pay the transaction fee. */
  const FeeReserve: nat := 5000

  /** The instructions emitted for one token account, given the recipient's
      associated token account for its mint and whether that account was found. */
  function AccountGroup(account: TokenAccount, principal: PublicKey, recipient: PublicKey,
                        recipientAta: PublicKey, ataExists: bool): (g: seq<Instruction>)
    ensures 1 <= |g| <= 3
    ensures g[|g| - 1] == CloseAccount(account.pubkey, principal, principal)
  {
    (if ataExists then [] else [CreateAssociatedTokenAccount(principal, recipientAta, recipient, account.mint)])
    + (if account.amount != 0 then [TokenTransfer(account.pubkey, recipientAta, principal, account.amount)] else [])
    + [CloseAccount(account.pubkey, principal, principal)]
  }

  /** What the group of one account holds, and in which order. */
  lemma AccountGroupShape(account: TokenAccount, principal: PublicKey, recipient: PublicKey,
                          recipientAta: PublicKey, ataExists: bool)
    ensures var g := AccountGroup(account, principal, recipient, recipientAta, ataExists);
            // the close is the last instruction of the group and the only close in it
            && g[|g| - 1] == CloseAccount(account.pubkey, principal, principal)
            && (forall i :: 0 <= i < |g| - 1 ==> !g[i].CloseAccount?)
            // a create for the recipient's account exactly when it was absent, and then first
            && (CreateAssociatedTokenAccount(principal, recipientAta, recipient, account.mint) in g <==> !ataExists)
            && (forall i :: 0 <= i < |g| && g[i].CreateAssociatedTokenAccount? ==>
                  i == 0 && g[i] == CreateAssociatedTokenAccount(principal, recipientAta, recipient, account.mint))
            // a transfer of the whole balance exactly when it is non-zero, and then just before the close
            && (TokenTransfer(account.pubkey, recipientAta, principal, account.amount) in g <==> account.amount != 0)
            && (forall i :: 0 <= i < |g| && g[i].TokenTransfer? ==>
                  i == |g| - 2 && g[i] == TokenTransfer(account.pubkey, recipientAta, principal, account.amount))
            && (forall i :: 0 <= i < |g| ==> !g[i].SystemTransfer?)
  {
  }

  /** The token part of the plan: the groups of all accounts, in enumeration
      order. `associatedAddress(mint, owner)` is the associated-token-account
      derivation and `present(address)` the existence lookup. */
  function PlanAccounts(accounts: seq<TokenAccount>, principal: PublicKey, recipient: PublicKey,
                        associatedAddress: (PublicKey, PublicKey) -> PublicKey,
                        present: PublicKey -> bool): (plan: seq<Instruction>)
    ensures |accounts| <= |plan| <= 3 * |accounts|
    ensures forall i :: 0 <= i < |plan| ==> !plan[i].SystemTransfer?
    decreases |accounts|
  {
    if accounts == [] then []
    else
      var ata := associatedAddress(accounts[0].mint, recipient);
      AccountGroup(accounts[0], principal, recipient, ata, present(ata))
      + PlanAccounts(accounts[1..], principal, recipient, associatedAddress, present)
  }

  /** The native sweep: at most one transfer of everything above the fee reserve. */
  function NativeSweep(principal: PublicKey, recipient: PublicKey, balance: nat): (s: seq<Instruction>)
    ensures |s| <= 1
    ensures s != [] <==> balance > FeeReserve
    ensures s != [] ==> s[0].SystemTransfer? && s[0].fromPubkey == principal && s[0].toPubkey == recipient
    ensures s != [] ==> s[0].lamports + FeeReserve == balance
  {
    var lamportsToSend := balance - FeeReserve;
    if lamportsToSend > 0 then [SystemTransfer(principal, recipient, lamportsToSend)] else []
  }

  /** The whole instruction list: the token groups, then the native sweep. */
  function Plan(accounts: seq<TokenAccount>, principal: PublicKey, recipient: PublicKey,
                associatedAddress: (PublicKey, PublicKey) -> PublicKey,
                present: PublicKey -> bool, balance: nat): (plan: seq<Instruction>)
    ensures plan == [] <==> accounts == [] && balance <= FeeReserve
    ensures forall i :: 0 <= i < |plan| && plan[i].SystemTransfer? ==>
              && i == |plan| - 1
              && plan[i] == SystemTransfer(principal, recipient, plan[i].lamports)
              && plan[i].lamports + FeeReserve == balance
    ensures (exists i :: 0 <= i < |plan| && plan[i].SystemTransfer?) <==> balance > FeeReserve
  {
    var tokens := PlanAccounts(accounts, principal, recipient, associatedAddress, present);
    var native := NativeSweep(principal, recipient, balance);
    assert native != [] ==> (tokens + native)[|tokens|] == native[0];
    tokens + native
  }

  /** The planning loop as the handler writes it: push onto one growing list. */
  method BuildInstructions(accounts: seq<TokenAccount>, principal: PublicKey, recipient: PublicKey,
                           associatedAddress: (PublicKey, PublicKey) -> PublicKey,
                           present: PublicKey -> bool, balance: nat)
    returns (instructions: seq<Instruction>)
    ensures instructions == Plan(accounts, principal, recipient, associatedAddress, present, balance)
  {
    instructions := [];
    var i := 0;
    while i < |accounts|
      invariant 0 <= i <= |accounts|
      invariant instructions == PlanAccounts(accounts[..i], principal, recipient, associatedAddress, present)
    {
      instructions := PushAccount(instructions, accounts[i], principal, recipient, associatedAddress, present);
      PlanAccountsExtend(accounts, i, principal, recipient, associatedAddress, present);
      i := i + 1;
    }
    assert accounts[..i] == accounts;
    var lamportsToSend := balance - FeeReserve;
    if lamportsToSend > 0 {
      instructions := instructions + [SystemTransfer(principal, recipient, lamportsToSend)];
    }
  }

  /** One iteration of the planning loop: look the recipient's account up and
      push the create, the transfer and the close that apply. */
  method PushAccount(instructions: seq<Instruction>, account: TokenAccount, principal: PublicKey, recipient: PublicKey,
                     associatedAddress: (PublicKey, PublicKey) -> PublicKey,
                     present: PublicKey -> bool)
    returns (pushed: seq<Instruction>)
    ensures var ata := associatedAddress(account.mint, recipient);
            pushed == instructions + AccountGroup(account, principal, recipient, ata, present(ata))
  {
    var recipientAta := associatedAddress(account.mint, recipient);
    pushed := instructions;
    if !present(recipientAta) {
      pushed := pushed + [CreateAssociatedTokenAccount(principal, recipientAta, recipient, account.mint)];
    }
    if account.amount != 0 {
      pushed := pushed + [TokenTransfer(account.pubkey, recipientAta, principal, account.amount)];
    }
    pushed := pushed + [CloseAccount(account.pubkey, principal, principal)];
  }

  /** Planning a concatenation of account lists concatenates their plans. */
  lemma {:induction false} PlanAccountsAppend(xs: seq<TokenAccount>, ys: seq<TokenAccount>,
                                              principal: PublicKey, recipient: PublicKey,
                                              associatedAddress: (PublicKey, PublicKey) -> PublicKey,
                                              present: PublicKey -> bool)
    ensures PlanAccounts(xs + ys, principal, recipient, associatedAddress, present)
         == PlanAccounts(xs, principal, recipient, associatedAddress, present)
          + PlanAccounts(ys, principal, recipient, associatedAddress, present)
    decreases |xs|
  {
    if xs == [] {
      assert xs + ys == ys;
    } else {
      assert (xs + ys)[0] == xs[0];
      assert (xs + ys)[1..] == xs[1..] + ys;
      PlanAccountsAppend(xs[1..], ys, principal, recipient, associatedAddress, present);
    }
  }

  /** Number of accounts whose recipient associated token account was found absent. */
  function AbsentCount(accounts: seq<TokenAccount>, recipient: PublicKey,
                       associatedAddress: (PublicKey, PublicKey) -> PublicKey,
                       present: PublicKey -> bool): nat
    decreases |accounts|
  {
    if accounts == [] then 0
    else (if present(associatedAddress(accounts[0].mint, recipient)) then 0 else 1)
         + AbsentCount(accounts[1..], recipient, associatedAddress, present)
  }

  /** Number of accounts with a non-zero balance. */
  function FundedCount(accounts: seq<TokenAccount>): nat
    decreases |accounts|
  {
    if accounts == [] then 0
    else (if accounts[0].amount != 0 then 1 else 0) + FundedCount(accounts[1..])
  }

  /** The position at which the group of account `k` starts: one close per
      earlier account, plus one create per earlier absent destination, plus one
      transfer per earlier funded account. */
  function GroupStart(accounts: seq<TokenAccount>, k: nat, recipient: PublicKey,
                      associatedAddress: (PublicKey, PublicKey) -> PublicKey,
                      present: PublicKey -> bool): nat
    requires k <= |accounts|
  {
    k + AbsentCount(accounts[..k], recipient, associatedAddress, present) + FundedCount(accounts[..k])
  }

  /** The token plan has one instruction per account, one per absent
      destination and one per funded account. */
  lemma {:induction false} PlanAccountsLength(accounts: seq<TokenAccount>, principal: PublicKey, recipient: PublicKey,
                                              associatedAddress: (PublicKey, PublicKey) -> PublicKey,
                                              present: PublicKey -> bool)
    ensures |PlanAccounts(accounts, principal, recipient, associatedAddress, present)|
         == |accounts| + AbsentCount(accounts, recipient, associatedAddress, present) + FundedCount(accounts)
    decreases |accounts|
  {
    if accounts != [] {
      PlanAccountsLength(accounts[1..], principal, recipient, associatedAddress, present);
    }
  }

  /** The instruction count of the whole plan. */
  lemma InstructionCount(accounts: seq<TokenAccount>, principal: PublicKey, recipient: PublicKey,
                         associatedAddress: (PublicKey, PublicKey) -> PublicKey,
                         present: PublicKey -> bool, balance: nat)
    ensures |Plan(accounts, principal, recipient, associatedAddress, present, balance)|
         == |accounts| + AbsentCount(accounts, recipient, associatedAddress, present) + FundedCount(accounts)
            + (if balance > FeeReserve then 1 else 0)
  {
    PlanAccountsLength(accounts, principal, recipient, associatedAddress, present);
  }

  /** Planning a single account yields exactly its group. */
  lemma PlanAccountsSingle(account: TokenAccount, principal: PublicKey, recipient: PublicKey,
                           associatedAddress: (PublicKey, PublicKey) -> PublicKey,
                           present: PublicKey -> bool)
    ensures var ata := associatedAddress(account.mint, recipient);
            PlanAccounts([account], principal, recipient, associatedAddress, present)
            == AccountGroup(account, principal, recipient, ata, present(ata))
  {
    assert [account][1..] == [];
  }

  /** Planning one more account appends that account's group. */
  lemma PlanAccountsExtend(accounts: seq<TokenAccount>, i: nat, principal: PublicKey, recipient: PublicKey,
                           associatedAddress: (PublicKey, PublicKey) -> PublicKey,
                           present: PublicKey -> bool)
    requires i < |accounts|
    ensures var ata := associatedAddress(accounts[i].mint, recipient);
            PlanAccounts(accounts[..i + 1], principal, recipient, associatedAddress, present)
            == PlanAccounts(accounts[..i], principal, recipient, associatedAddress, present)
             + AccountGroup(accounts[i], principal, recipient, ata, present(ata))
  {
    assert accounts[..i + 1] == accounts[..i] + [accounts[i]];
    PlanAccountsSingle(accounts[i], principal, recipient, associatedAddress, present);
    PlanAccountsAppend(accounts[..i], [accounts[i]], principal, recipient, associatedAddress, present);
  }

  /** The plan splits around any account into the plan of the accounts before
      it, its own group, and the plan of the accounts after it. */
  lemma PlanAccountsSplit(accounts: seq<TokenAccount>, k: nat, principal: PublicKey, recipient: PublicKey,
                          associatedAddress: (PublicKey, PublicKey) -> PublicKey,
                          present: PublicKey -> bool)
    requires k < |accounts|
    ensures var ata := associatedAddress(accounts[k].mint, recipient);
            PlanAccounts(accounts, principal, recipient, associatedAddress, present)
            == PlanAccounts(accounts[..k], principal, recipient, associatedAddress, present)
             + AccountGroup(accounts[k], principal, recipient, ata, present(ata))
             + PlanAccounts(accounts[k + 1..], principal, recipient, associatedAddress, present)
  {
    var before := accounts[..k];
    var upto := accounts[..k + 1];
    var after := accounts[k + 1..];
    assert upto == before + [accounts[k]];
    assert accounts == upto + after;
    PlanAccountsSingle(accounts[k], principal, recipient, associatedAddress, present);
    PlanAccountsAppend(before, [accounts[k]], principal, recipient, associatedAddress, present);
    PlanAccountsAppend(upto, after, principal, recipient, associatedAddress, present);
  }

  /** The plan is the groups of the accounts laid end to end in enumeration
      order: account `k`'s group occupies exactly the slice starting at
      `GroupStart(k)`, and its close ends that slice. */
  lemma GroupAt(accounts: seq<TokenAccount>, k: nat, principal: PublicKey, recipient: PublicKey,
                associatedAddress: (PublicKey, PublicKey) -> PublicKey,
                present: PublicKey -> bool)
    requires k < |accounts|
    ensures var plan := PlanAccounts(accounts, principal, recipient, associatedAddress, present);
            var ata := associatedAddress(accounts[k].mint, recipient);
            var start := GroupStart(accounts, k, recipient, associatedAddress, present);
            var end := GroupStart(accounts, k + 1, recipient, associatedAddress, present);
            && start < end <= |plan|
            && plan[start..end] == AccountGroup(accounts[k], principal, recipient, ata, present(ata))
            && plan[end - 1] == CloseAccount(accounts[k].pubkey, principal, principal)
  {
    var ata := associatedAddress(accounts[k].mint, recipient);
    var group := AccountGroup(accounts[k], principal, recipient, ata, present(ata));
    var prefix := PlanAccounts(accounts[..k], principal, recipient, associatedAddress, present);
    var suffix := PlanAccounts(accounts[k + 1..], principal, recipient, associatedAddress, present);
    PlanAccountsSplit(accounts, k, principal, recipient, associatedAddress, present);
    PlanAccountsLength(accounts[..k], principal, recipient, associatedAddress, present);
    PlanAccountsLength(accounts[..k + 1], principal, recipient, associatedAddress, present);
    assert accounts[..k + 1] == accounts[..k] + [accounts[k]];
    PlanAccountsAppend(accounts[..k], [accounts[k]], principal, recipient, associatedAddress, present);
    PlanAccountsSingle(accounts[k], principal, recipient, associatedAddress, present);
    assert GroupStart(accounts, k, recipient, associatedAddress, present) == |prefix|;
    assert GroupStart(accounts, k + 1, recipient, associatedAddress, present) == |prefix| + |group|;
    assert (prefix + group + suffix)[|prefix|..|prefix| + |group|] == group;
  }

  /** Instruction kinds, for counting. */
  datatype Kind = CreateKind | TransferKind | CloseKind | NativeKind

  function KindOf(instruction: Instruction): Kind {
    match instruction
    case CreateAssociatedTokenAccount(_, _, _, _) => CreateKind
    case TokenTransfer(_, _, _, _) => TransferKind
    case CloseAccount(_, _, _) => CloseKind
    case SystemTransfer(_, _, _) => NativeKind
  }

  /** Number of instructions of a kind in a list. */
  function Tally(instructions: seq<Instruction>, kind: Kind): nat
    decreases |instructions|
  {
    if instructions == [] then 0
    else (if KindOf(instructions[0]) == kind then 1 else 0) + Tally(instructions[1..], kind)
  }

  lemma {:induction false} TallyAppend(xs: seq<Instruction>, ys: seq<Instruction>, kind: Kind)
    ensures Tally(xs + ys, kind) == Tally(xs, kind) + Tally(ys, kind)
    decreases |xs|
  {
    if xs == [] {
      assert xs + ys == ys;
    } else {
      assert (xs + ys)[0] == xs[0];
      assert (xs + ys)[1..] == xs[1..] + ys;
      TallyAppend(xs[1..], ys, kind);
    }
  }

  /** Exactly one close per enumerated account, one create per account whose
      destination was absent (so one per such account, not one per mint), one
      token transfer per funded account, and no native transfer among them. */
  lemma {:induction false} TalliesMatchAccounts(accounts: seq<TokenAccount>, principal: PublicKey, recipient: PublicKey,
                                                associatedAddress: (PublicKey, PublicKey) -> PublicKey,
                                                present: PublicKey -> bool)
    ensures var plan := PlanAccounts(accounts, principal, recipient, associatedAddress, present);
            && Tally(plan, CloseKind) == |accounts|
            && Tally(plan, CreateKind) == AbsentCount(accounts, recipient, associatedAddress, present)
            && Tally(plan, TransferKind) == FundedCount(accounts)
            && Tally(plan, NativeKind) == 0
    decreases |accounts|
  {
    if accounts != [] {
      var ata := associatedAddress(accounts[0].mint, recipient);
      var group := AccountGroup(accounts[0], principal, recipient, ata, present(ata));
      var rest := PlanAccounts(accounts[1..], principal, recipient, associatedAddress, present);
      TalliesMatchAccounts(accounts[1..], principal, recipient, associatedAddress, present);
      TallyAppend(group, rest, CloseKind);
      TallyAppend(group, rest, CreateKind);
      TallyAppend(group, rest, TransferKind);
      TallyAppend(group, rest, NativeKind);
      GroupTallies(accounts[0], principal, recipient, ata, present(ata), CloseKind);
      GroupTallies(accounts[0], principal, recipient, ata, present(ata), CreateKind);
      GroupTallies(accounts[0], principal, recipient, ata, present(ata), TransferKind);
      GroupTallies(accounts[0], principal, recipient, ata, present(ata), NativeKind);
    }
  }

  lemma TallySingle(instruction: Instruction, kind: Kind)
    ensures Tally([instruction], kind) == (if KindOf(instruction) == kind then 1 else 0)
  {
    assert [instruction][1..] == [];
  }

  lemma GroupTallies(account: TokenAccount, principal: PublicKey, recipient: PublicKey,
                     recipientAta: PublicKey, ataExists: bool, kind: Kind)
    ensures Tally(AccountGroup(account, principal, recipient, recipientAta, ataExists), kind)
         == (if kind == CloseKind then 1
             else if kind == CreateKind then (if ataExists then 0 else 1)
             else if kind == TransferKind then (if account.amount != 0 then 1 else 0)
             else 0)
  {
    var creates: seq<Instruction> := if ataExists then [] else [CreateAssociatedTokenAccount(principal, recipientAta, recipient, account.mint)];
    var transfers: seq<Instruction> := if account.amount != 0 then [TokenTransfer(account.pubkey, recipientAta, principal, account.amount)] else [];
    var close := CloseAccount(account.pubkey, principal, principal);
    TallyAppend(creates, transfers, kind);
    TallyAppend(creates + transfers, [close], kind);
    TallySingle(close, kind);
    if !ataExists {
      TallySingle(creates[0], kind);
    }
    if account.amount != 0 {
      TallySingle(transfers[0], kind);
    }
  }

  /** The existence lookup is made per account, not per mint: two accounts of
      one mint whose recipient account is absent each get their own create. */
  lemma SharedMintCreatesTwice(first: PublicKey, second: PublicKey, mint: PublicKey, firstAmount: nat, secondAmount: nat,
                               principal: PublicKey, recipient: PublicKey,
                               associatedAddress: (PublicKey, PublicKey) -> PublicKey,
                               present: PublicKey -> bool)
    requires !present(associatedAddress(mint, recipient))
    ensures var accounts := [TokenAccount(first, mint, firstAmount), TokenAccount(second, mint, secondAmount)];
            var plan := PlanAccounts(accounts, principal, recipient, associatedAddress, present);
            var create := CreateAssociatedTokenAccount(principal, associatedAddress(mint, recipient), recipient, mint);
            var j := GroupStart(accounts, 1, recipient, associatedAddress, present);
            && 0 < j < |plan|
            && plan[0] == create && plan[j] == create
            && Tally(plan, CreateKind) == 2
  {
    var accounts := [TokenAccount(first, mint, firstAmount), TokenAccount(second, mint, secondAmount)];
    var ata := associatedAddress(mint, recipient);
    GroupAt(accounts, 0, principal, recipient, associatedAddress, present);
    GroupAt(accounts, 1, principal, recipient, associatedAddress, present);
    TalliesMatchAccounts(accounts, principal, recipient, associatedAddress, present);
    assert accounts[1..] == [accounts[1]];
    assert accounts[1..][1..] == [];
  }

  /** Two accounts: mint A funded with 1000 and its destination present, mint B
      empty with its destination absent, and 10000 lamports. */
  lemma TwoAccountScenario(accountA: PublicKey, accountB: PublicKey, mintA: PublicKey, mintB: PublicKey,
                           principal: PublicKey, recipient: PublicKey,
                           associatedAddress: (PublicKey, PublicKey) -> PublicKey,
                           present: PublicKey -> bool)
    requires present(associatedAddress(mintA, recipient))
    requires !present(associatedAddress(mintB, recipient))
    ensures Plan([TokenAccount(accountA, mintA, 1000), TokenAccount(accountB, mintB, 0)],
                 principal, recipient, associatedAddress, present, 10000)
         == [ TokenTransfer(accountA, associatedAddress(mintA, recipient), principal, 1000),
              CloseAccount(accountA, principal, principal),
              CreateAssociatedTokenAccount(principal, associatedAddress(mintB, recipient), recipient, mintB),
              CloseAccount(accountB, principal, principal),
              SystemTransfer(principal, recipient, 5000) ]
  {
    var accounts := [TokenAccount(accountA, mintA, 1000), TokenAccount(accountB, mintB, 0)];
    PlanAccountsSplit(accounts, 0, principal, recipient, associatedAddress, present);
    assert accounts[1..] == [accounts[1]];
    PlanAccountsSingle(accounts[1], principal, recipient, associatedAddress, present);
    assert accounts[..0] == [];
  }
}

=== FILE: solana.dfy ===
/** The ledger entities the sweep handler reads and builds. */
module Solana {

  /** A ledger address (32 bytes on the ledger; the model never looks inside one). */
  type PublicKey = seq<bv8>

  /** A transaction identifier as returned by the wallet's send call. */
  type Signature = string

  /** One token account owned by the connected wallet, as enumerated by the
      parsed-token-accounts query: its own address, the mint of the token it
      holds and its raw balance in the token's smallest unit. */
  datatype TokenAccount = TokenAccount(pubkey: PublicKey, mint: PublicKey, amount: nat)

  /** The four instructions the handler can emit. */
  datatype Instruction =
    | CreateAssociatedTokenAccount(payer: PublicKey, associatedToken: PublicKey, owner: PublicKey, mint: PublicKey)
    | TokenTransfer(source: PublicKey, destination: PublicKey, owner: PublicKey, amount: nat)
    | CloseAccount(account: PublicKey, destination: PublicKey, authority: PublicKey)
    | SystemTransfer(fromPubkey: PublicKey, toPubkey: PublicKey, lamports: nat)

  /** A recent blockhash together with the block height after which it expires. */
  datatype BlockhashInfo = BlockhashInfo(blockhash: string, lastValidBlockHeight: nat)

  /** A compiled transaction: fee payer, freshness anchor and the ordered instructions. */
  datatype Transaction = Transaction(payerKey: PublicKey, recentBlockhash: string, instructions: seq<Instruction>)
}

=== FILE: wrappers.dfy ===
/** Failure-carrying datatypes shared by the model. */
module Wrappers {

  /** A value that may be absent: the result of parsing user text into an address. */
  datatype Option<+T> = None | Some(value: T)

  /** The result of an awaited call that may throw: the value it returned,
      or the `message` property of what it threw, which is absent (`None`)
      when the thrown value has no message. */
  datatype Io<+T> = Returned(value: T) | Threw(message: Option<string>) {

    /** Whether the call returned or threw, without the value it returned. */
    function Status(): Io<()> {
      if Threw? then Threw(message) else Returned(())
    }
  }
}
